=== FILE: README.md ===
# Share-link to outbound converter, in Dafny

This project models `config_converter.py`, which turns a proxy share link
(`vless://`, `ss://`, `vmess://`, `trojan://`) into an outbound descriptor
for a proxy core's configuration, and wraps one descriptor into a test
configuration with a local socks listener.

The model is functional. Every parser is a pure function of the link and
a `Library.Lib` record. That record holds the library calls the program
makes, as total functions:

- `urlparse` plus `parse_qs`, yielding a `Urls.Url` with a query map;
- `unquote`;
- base64 decoding followed by UTF-8 decoding;
- the two `json.loads` uses;
- `int()`.

Name resolution is passed to `Converter.GenerateTestConfig` as a function
`string -> Option<string>`.

Modules:

- `Wrappers`: `Option`.
- `Text`: prefix tests, Python truthiness, the chained
  `a if a else b ...` conditional (`Coalesce`), and `str.split` with its
  join round trip.
- `Urls`: the parsed URL, the query map, and the `params.get(k, [d])[0]`
  accessors.
- `Library`: the collaborators, JSON values, the fragment-or-hostname tag,
  and `dict.update` (`Merge`).
- `Descriptor`: the outbound descriptor and its shape invariant `WellFormed`.
- `StreamParams`: the tls, reality and tcp-header blocks that vless and
  trojan read the same way.
- `VlessLink`, `ShadowsocksLink`, `VmessLink`, `TrojanLink`: one module per
  parser.
- `Converter`: dispatch by prefix, `to_link`, and `generate_test_config`.

The program's one-element `vnext`, `servers` and `users` lists are each
held as their sole element (`Settings.Vnext` and `Settings.Servers`).
`WellFormed` ties each of these constructors to its protocol family.

Where the code's behaviour is narrower or odder than a loose reading
suggests, the model follows the code:

- The VMess tag comes from `ps` whenever the field is present, even when
  it is empty. The `vmess-<add>` default also goes through `unquote`.
- The VMess tls server name is `sni` when that key is present, even if it
  is empty. `host` and then `""` are used only when the key is absent.
- The trojan server name is also chosen by presence: `sni`, then `host`,
  then the address. `TrojanLink.ServerNameIsFirstTruthy` shows this equals
  the first-truthy choice for queries with no blank values, which are the
  only queries `parse_qs` produces by default.
- A trojan link only ever gets a tcp-header transport block. A `type=ws`
  trojan link gets no `wsSettings`.
- A VMess payload with `"tls": "reality"` sets security `reality` but gets
  no reality block.
- The VLESS `alpn` list is every `alpn` query value, not a comma split.
  The VMess `alpn` field is split at commas.
- The VMess grpc `authority` is always emitted, defaulting to `""`. The
  VLESS grpc `authority` is emitted only when it is truthy.

## Model

| member | source | states |
|---|---|---|
| Text.Coalesce | config_converter.py:40 | the chained conditional yields the first truthy candidate, and yields the final fallback when no candidate is truthy |
| Text.SplitOnce | config_converter.py:111 | `split(':', 1)` unpacks only when the text holds a colon; the head has no colon, and head, colon and rest rebuild the text |
| Text.SplitOnceUnique | config_converter.py:111 | the split is at the first colon: any decomposition whose head has no colon is the one produced |
| Text.Split | config_converter.py:178 | `str.split` yields at least one piece and no piece contains the separator |
| Text.JoinSplit | config_converter.py:178 | joining the pieces of the alpn split gives back the original field |
| Text.SplitJoin | config_converter.py:178 | splitting a join of separator-free pieces gives back the pieces |
| Library.Merge | config_converter.py:82 | `dict.update` keeps every key of both objects, and the extra object's value wins where both have one |
| Descriptor.WithAddress | config_converter.py:309-316 | replacing the address sets it, changes nothing else, keeps the shape invariant, and is the identity when the address is already the one given |
| StreamParams.TlsFromQuery | config_converter.py:41-42 | tls alpn is every `alpn` value or `["h2","http/1.1"]`; the fingerprint is present exactly when `fp` is |
| StreamParams.RealityFromQuery | config_converter.py:49-55 | reality defaults: fingerprint `chrome`, public key `""`, short id `""`, spider path `/`; otherwise the first query value |
| StreamParams.TcpHeader | config_converter.py:94-99 | a tcp header block exists exactly when `headerType` is present and not `none`, and carries that type |
| VlessLink.TlsServerNamePriority | config_converter.py:37-40 | the vless tls server name is the first truthy of sni, authority, host, and is the address when none is truthy |
| VlessLink.RealityServerNamePriority | config_converter.py:46-48 | the vless reality server name is the first truthy of sni, host, and is the address otherwise; authority is ignored |
| VlessLink.XhttpFields | config_converter.py:72-85 | xhttp settings hold path `/`, host (the address by default) and mode `auto`; a valid `extra` object overrides key by key, and an invalid one leaves exactly the three base keys |
| VlessLink.ExtraFromFirstValue | config_converter.py:79-82 | the first `extra` value, when it decodes to an object, supplies every one of its keys to the xhttp settings |
| VlessLink.StreamTransport | config_converter.py:58-99 | at most one transport block, and only for the network it belongs to; ws, httpupgrade, xhttp and grpc always get one, tcp only with a header type; the ws Host header is present exactly when the host value is truthy; grpc multiMode iff mode is `multi`, authority only when truthy |
| VlessLink.Parse | config_converter.py:7-32 | `parse_vless` never returns `None`; the tag, address, port and id come from the parsed link, network defaults to `tcp` and security to `none`, and the result is well formed |
| VlessLink.ParseUrl | config_converter.py:10-56 | the tag is the decoded fragment or `vless-<host>`; encryption defaults to `none`, flow to `""`, network to `tcp`, security to `none`; the tls block appears iff security is `tls`, the reality block iff `reality`; the result is well formed |
| ShadowsocksLink.Parse | config_converter.py:103-133 | `parse_ss` returns `None` exactly when the parsed link's userinfo does not decode to text with a colon; otherwise it gives the `ss-` tag rule, the parsed address and port, and a fixed tcp/none stream |
| ShadowsocksLink.ParseUrl | config_converter.py:107-133 | a result exists iff the userinfo decodes and contains a colon; method and password then rebuild the decoded text around its first colon; the tag is the fragment or `ss-<host>`; the stream is fixed at tcp/none with no blocks |
| ShadowsocksLink.UnpaddedUserinfoExample | config_converter.py:110-111 | unpadded `YWVzLTI1Ni1nY206cGFzc3dvcmQ`, decoded with `==` appended, gives method `aes-256-gcm` and password `password` |
| ShadowsocksLink.NoUserinfoNoResult | config_converter.py:109-113 | a link without userinfo gives `None`: the failing `None + '=='` is caught |
| ShadowsocksLink.UndecodableUserinfoNoResult | config_converter.py:109-113 | userinfo that does not decode with `==` appended gives `None` |
| ShadowsocksLink.PaddedUserinfoSplits | config_converter.py:110-111 | userinfo of any length is decoded with `==` appended, and the text splits at its first colon into method and password |
| ShadowsocksLink.PasswordKeepsLaterColons | config_converter.py:111 | colons after the first one stay in the password |
| VmessLink.ServerName | config_converter.py:175 | the vmess tls server name is sni if present, else host if present, else `""` |
| VmessLink.TlsBlock | config_converter.py:174-181 | the tls block exists iff the `tls` field is `"tls"`; alpn exists iff the field is set, and its pieces rejoin to the field; the fingerprint exists iff `fp` is set |
| VmessLink.StreamTransport | config_converter.py:183-229 | one block for ws, xhttp, httpupgrade (lower-case key), grpc and kcp, and a tcp block only with a header type; kcp has mtu 1350, tti 50, uplink 5, downlink 20, no congestion, buffers 2/2, and its seed from `path`; grpc serviceName comes from `path` |
| VmessLink.ParseData | config_converter.py:146-172 | the tag is the decoded `ps`, or `vmess-<add>`; the port defaults to 443, alterId to 0, user security to `auto`; there is never a reality block; the result is well formed |
| VmessLink.Parse | config_converter.py:135-144 | no result for another prefix; for a vmess prefix, a result exists exactly when the padded payload decodes to a JSON object |
| VmessLink.PayloadFollowsPrefix | config_converter.py:137-144 | the text decoded is exactly what follows `vmess://` with `==` appended; when it decodes to a JSON object, the link's outbound is the outbound of that object |
| VmessLink.UndecodablePayloadNoResult | config_converter.py:140-144 | a vmess link whose padded payload is not valid base64 gives `None` |
| VmessLink.NonJsonPayloadNoResult | config_converter.py:140-144 | a vmess link whose decoded payload is not a JSON object gives `None` |
| VmessLink.WsPayloadExample | config_converter.py:189-196 | a ws payload with port `"8080"`, host and path yields port 8080, that path and that Host header |
| TrojanLink.ServerName | config_converter.py:259 | the trojan server name is the first sni value if present, else the first host value if present, else the address |
| TrojanLink.ServerNameIsFirstTruthy | config_converter.py:259-265 | for queries without blank values, the trojan server name is the first truthy of sni, host, address, and equals the vless reality choice |
| TrojanLink.TcpBlock | config_converter.py:275-280 | the trojan tcp block exists iff `type` is exactly `["tcp"]` and `headerType` is present and not `none` |
| TrojanLink.Parse | config_converter.py:233-254 | `parse_trojan` never returns `None`; the tag, address, port and password come from the parsed link, there is no method, and the only transport block is the strict tcp header |
| TrojanLink.ParseUrl | config_converter.py:236-282 | the tag is the fragment or `trojan-<host>`; the password comes from the userinfo and there is no method; the tls and reality blocks follow security; the only transport block is the tcp header; the result is well formed |
| TrojanLink.TcpGuardStricterThanVless | config_converter.py:275-280 | whenever trojan emits a tcp block, vless emits the same one for the same URL; a defaulted tcp network never gets one as trojan |
| TrojanLink.HeaderTypeExample | config_converter.py:275-280 | `headerType=http` alone gives a tcp block for vless but none for trojan; adding `type=tcp` gives trojan one |
| Converter.PrefixesExclusive | config_converter.py:284-295 | no link carries two of the four scheme prefixes |
| Converter.OnlyPrefix | config_converter.py:284-295 | a link with one protocol's prefix has no other protocol's prefix |
| Converter.Dispatch | config_converter.py:284-295 | no result without a known prefix; every result's protocol is the one its prefix names, and the result is well formed; vless and trojan links never give `None` |
| Converter.DispatchRoutesByPrefix | config_converter.py:284-295 | a link with a scheme prefix reaches exactly that scheme's parser |
| Converter.SchemePrefixWords | config_converter.py:286-292 | each prefix is the protocol name and `://`, except that shadowsocks uses `ss://` |
| Converter.HttpUpgradeKeys | config_converter.py:66-68 | a vless httpupgrade block sits under `httpUpgradeSettings`, a vmess one (line 209) under `httpupgradeSettings` |
| Converter.NoPrefixByFirstChar | config_converter.py:284-295 | a link whose first character is not `v`, `s` or `t` has none of the four prefixes |
| Converter.UrlSchemeTags | config_converter.py:15 | vless, trojan and shadowsocks tags are the decoded fragment when it is non-empty; otherwise they are `vless-`, `trojan-` and `ss-` (not `shadowsocks-`) followed by the hostname |
| Converter.HttpLinkUnrecognised | config_converter.py:294-295 | `http://example.com` gives no result |
| Converter.ToLink | config_converter.py:297-301 | no link is produced for any outbound |
| Converter.Resolved | config_converter.py:308-318 | a successful lookup replaces only the address, with the resolved literal; a failed lookup leaves the outbound unchanged |
| Converter.GenerateTestConfig | config_converter.py:303-325 | no result exactly when dispatch gives none; otherwise there is a single outbound equal to the dispatched one except for its address, which is the resolved literal or the unchanged hostname; also a socks inbound on 127.0.0.1 at the port, log level `warning`, and DNS 8.8.8.8 and 1.1.1.1 |

## Left out

- The `__main__` command-line block (config_converter.py:327-351) is left out: argument handling, exit status and printing are I/O.
- The internals of `urlparse`, `parse_qs` and `unquote` are left out; `Lib.urlParse` and `Lib.unquote` stand for them. `Lib.urlParse` is total.
- Converter.Dispatch: no `ValueError` from `urlparse` or from reading `.port` is modelled. Examples are an unbalanced bracket such as `vless://id@[::1:443`, an invalid bracketed or NFKC-invalid host, and an out-of-range or non-numeric port. Vless, shadowsocks and trojan links raise there. So the promise that vless and trojan links never give `None` holds only where the library does not raise.
- Base64, UTF-8 and JSON decoding are library calls. The model has them as `Lib.b64DecodeText`, `Lib.jsonObject` and `Lib.jsonStrings`, each returning `None` where the program catches the failure.
- The model assumes the VMess payload decodes to an object with string values. For a payload that is valid JSON but not an object, the program raises `AttributeError`. Numbers, booleans and nulls inside the payload are not modelled.
- VlessLink.XhttpFields: an `extra` object holding a non-integer number is not modelled, because `Json` has no floats; the decoder is unconstrained on such text. A valid `extra` that is not an object is not modelled either. `dict.update` would raise on it, or merge it if it is a list of pairs; here the decoder returns `None` for it, and the extra is ignored.
- VmessLink.ParseData: does not model `int()` raising `ValueError` on a non-numeric `port` or `aid`. `Lib.toInt` is total.
- Converter.GenerateTestConfig: does not model `int(port)` raising on a non-numeric port. It requires the dispatched outbound to have an address, because `gethostbyname(None)` raises `TypeError`, which the program does not catch. Only `socket.gaierror` is modelled, as a `None` lookup; other resolver exceptions are not.
- `socket.gethostbyname` is network I/O. The resolver is a parameter.
- JSON serialisation of the descriptor, and key order in it, are not modelled. Transport keys are kept by `Descriptor.SettingsKey`.
- Parsing the same link twice gives the same descriptor. This holds because every parser is a pure function, so there is no separate lemma for it.

=== FILE: converter.dfy ===
/**
 The entry points: routing a link to its scheme's parser, the unimplemented
 reverse direction, and wrapping one outbound into a runnable test
 configuration.
 */
module Converter {
  import opened Wrappers
  import opened Text
  import opened Urls
  import opened Library
  import opened Descriptor
  import VlessLink
  import ShadowsocksLink
  import VmessLink
  import TrojanLink

  /** The literal prefix that marks a link of each protocol. */
  function SchemePrefix(p: Protocol): string {
    match p
    case Vless => "vless://"
    case Shadowsocks => "ss://"
    case Vmess => VmessLink.Prefix
    case Trojan => "trojan://"
  }

  /** Each scheme prefix is the protocol name and `://`, except that shadowsocks links use `ss`. */
  lemma SchemePrefixWords(p: Protocol)
    ensures p != Shadowsocks ==> SchemePrefix(p) == ProtocolName(p) + "://"
    ensures p == Shadowsocks ==> SchemePrefix(p) == "ss://" && ProtocolName(p) == "shadowsocks"
  {
  }

  /**
   The httpupgrade block of a vless link sits under `httpUpgradeSettings`,
   that of a vmess link under `httpupgradeSettings`: the two keys differ in case.
   */
  lemma HttpUpgradeKeys(lib: Lib, u: Url, data: map<string, string>)
    ensures First(u.query, "type", "tcp") == "httpupgrade" ==>
              SettingsKey(VlessLink.ParseUrl(lib, u).stream.transport.value) == "httpUpgradeSettings"
    ensures VmessLink.Lookup(data, "net", "tcp") == "httpupgrade" ==>
              SettingsKey(VmessLink.ParseData(lib, data).stream.transport.value) == "httpupgradeSettings"
  {
  }

  /** No link carries two scheme prefixes, so the order in which they are tried is immaterial. */
  lemma PrefixesExclusive(link: string, p: Protocol, p': Protocol)
    requires StartsWith(link, SchemePrefix(p)) && StartsWith(link, SchemePrefix(p'))
    ensures p == p'
  {
    var a, b := SchemePrefix(p), SchemePrefix(p');
    assert a[0] == link[0] == b[0];
    assert a[1] == link[1] == b[1];
  }

  /** A link that carries the prefix of `p` carries no other scheme prefix. */
  lemma OnlyPrefix(link: string, p: Protocol)
    requires StartsWith(link, SchemePrefix(p))
    ensures forall p' :: StartsWith(link, SchemePrefix(p')) ==> p' == p
  {
    forall p' | StartsWith(link, SchemePrefix(p')) {
      PrefixesExclusive(link, p, p');
    }
  }

  /**
   `to_outbound_dispatch`: the parser of the first matching prefix among
   vless, ss, vmess, trojan. A link with none of them is unrecognised; vless
   and trojan links never give `None`; every outbound is well formed and its
   protocol is the one its prefix names.
   */
  function Dispatch(lib: Lib, link: string): (r: Option<Outbound>)
    ensures (forall p :: !StartsWith(link, SchemePrefix(p))) ==> r.None?
    ensures r.Some? ==> StartsWith(link, SchemePrefix(r.value.protocol)) && WellFormed(r.value)
    ensures StartsWith(link, SchemePrefix(Vless)) ==> r.Some?
    ensures StartsWith(link, SchemePrefix(Trojan)) ==> r.Some?
  {
    if StartsWith(link, "vless://") then
      OnlyPrefix(link, Vless);
      Some(VlessLink.Parse(lib, link))
    else if StartsWith(link, "ss://") then
      OnlyPrefix(link, Shadowsocks);
      ShadowsocksLink.Parse(lib, link)
    else if StartsWith(link, "vmess://") then
      OnlyPrefix(link, Vmess);
      VmessLink.Parse(lib, link)
    else if StartsWith(link, "trojan://") then
      OnlyPrefix(link, Trojan);
      Some(TrojanLink.Parse(lib, link))
    else
      None
  }

  /** The parser for links of protocol `p`. */
  function ParserOf(p: Protocol, lib: Lib, link: string): Option<Outbound> {
    match p
    case Vless => Some(VlessLink.Parse(lib, link))
    case Shadowsocks => ShadowsocksLink.Parse(lib, link)
    case Vmess => VmessLink.Parse(lib, link)
    case Trojan => Some(TrojanLink.Parse(lib, link))
  }

  /** A recognised link reaches exactly its own scheme's parser. */
  lemma DispatchRoutesByPrefix(lib: Lib, link: string, p: Protocol)
    requires StartsWith(link, SchemePrefix(p))
    ensures Dispatch(lib, link) == ParserOf(p, lib, link)
  {
    OnlyPrefix(link, p);
    match p
    case Vless =>
    case Shadowsocks =>
      assert !StartsWith(link, SchemePrefix(Vless));
    case Vmess =>
      assert !StartsWith(link, SchemePrefix(Vless));
      assert !StartsWith(link, SchemePrefix(Shadowsocks));
    case Trojan =>
      assert !StartsWith(link, SchemePrefix(Vless));
      assert !StartsWith(link, SchemePrefix(Shadowsocks));
      assert !StartsWith(link, SchemePrefix(Vmess));
  }

  /** A link whose first character starts none of the prefixes carries none of them. */
  lemma NoPrefixByFirstChar(link: string)
    requires |link| > 0 && link[0] != 'v' && link[0] != 's' && link[0] != 't'
    ensures forall p :: !StartsWith(link, SchemePrefix(p))
  {
    forall p ensures !StartsWith(link, SchemePrefix(p)) {
      var prefix := SchemePrefix(p);
      assert link[0] != prefix[0];
      if |prefix| <= |link| {
        assert link[..|prefix|][0] != prefix[0];
      }
    }
  }

  /** A link with another scheme, such as `http://`, is unrecognised. */
  lemma HttpLinkUnrecognised(lib: Lib)
    ensures Dispatch(lib, "http://example.com").None?
  {
    NoPrefixByFirstChar("http://example.com");
  }

  /**
   The URL-shaped schemes share one tag rule: the percent-decoded fragment
   when it is non-empty, else the scheme word, a dash and the hostname. The
   word for shadowsocks is `ss`, not the protocol name.
   */
  lemma UrlSchemeTags(lib: Lib, u: Url)
    ensures u.fragment != "" ==>
              && VlessLink.ParseUrl(lib, u).tag == lib.unquote(u.fragment)
              && TrojanLink.ParseUrl(lib, u).tag == lib.unquote(u.fragment)
              && (ShadowsocksLink.ParseUrl(lib, u).Some? ==>
                    ShadowsocksLink.ParseUrl(lib, u).value.tag == lib.unquote(u.fragment))
    ensures u.fragment == "" ==>
              && VlessLink.ParseUrl(lib, u).tag == "vless-" + Format(u.hostname)
              && TrojanLink.ParseUrl(lib, u).tag == "trojan-" + Format(u.hostname)
              && (ShadowsocksLink.ParseUrl(lib, u).Some? ==>
                    ShadowsocksLink.ParseUrl(lib, u).value.tag == "ss-" + Format(u.hostname))
  {
  }

  /** `to_link`: the reverse direction is not implemented and reports no link for any outbound. */
  function ToLink(outbound: Outbound): (r: Option<string>)
    ensures r.None?
  {
    None
  }

  /** The local listener of a test configuration. */
  datatype Inbound = Inbound(tag: string, port: int, listen: string, protocol: string)

  /** The document `generate_test_config` returns. */
  datatype TestConfig = TestConfig(
    logLevel: string,
    inbounds: seq<Inbound>,
    outbounds: seq<Outbound>,
    dnsServers: seq<string>)

  /**
   The address of a dispatched outbound is a hostname to resolve; a link
   without a host would make the resolver raise on `None`.
   */
  predicate AddressKnown(d: Option<Outbound>) {
    d.Some? ==> d.value.settings.address.Some?
  }

  /**
   The outbound with its target or server address replaced by the resolved
   literal, or unchanged when resolution fails.
   */
  function Resolved(o: Outbound, resolve: string -> Option<string>): (r: Outbound)
    requires o.settings.address.Some?
    ensures SameExceptAddress(r, o)
    ensures resolve(o.settings.address.value).Some? ==> r.settings.address == resolve(o.settings.address.value)
    ensures resolve(o.settings.address.value).None? ==> r == o
    ensures WellFormed(o) ==> WellFormed(r)
  {
    match resolve(o.settings.address.value)
    case Some(ip) => WithAddress(o, ip)
    case None => o
  }

  /**
   `generate_test_config`: absent exactly when the link does not dispatch.
   Otherwise one socks listener on 127.0.0.1 at the given port, the single
   outbound with only its address possibly replaced by the resolved one,
   warning-level logging and the resolvers 8.8.8.8 and 1.1.1.1.
   */
  function GenerateTestConfig(lib: Lib, link: string, port: string, resolve: string -> Option<string>)
    : (r: Option<TestConfig>)
    requires AddressKnown(Dispatch(lib, link))
    ensures r.None? <==> Dispatch(lib, link).None?
    ensures r.Some? ==>
              && |r.value.outbounds| == 1
              && SameExceptAddress(r.value.outbounds[0], Dispatch(lib, link).value)
              && WellFormed(r.value.outbounds[0])
    ensures r.Some? ==>
              var host := Dispatch(lib, link).value.settings.address.value;
              r.value.outbounds[0].settings.address == Some(resolve(host).GetOr(host))
    ensures r.Some? ==>
              && r.value.logLevel == "warning"
              && r.value.inbounds == [Inbound("socks", lib.toInt(port), "127.0.0.1", "socks")]
              && r.value.dnsServers == ["8.8.8.8", "1.1.1.1"]
  {
    match Dispatch(lib, link)
    case None => None
    case Some(outbound) =>
      Some(TestConfig(
        "warning",
        [Inbound("socks", lib.toInt(port), "127.0.0.1", "socks")],
        [Resolved(outbound, resolve)],
        ["8.8.8.8", "1.1.1.1"]))
  }
}

=== FILE: descriptor.dfy ===
/**
 The outbound descriptor every parser produces: a tag, a protocol, the
 connection settings of the one remote target or server, and the stream
 settings with at most one security block and at most one transport block.
 */
module Descriptor {
  import opened Wrappers
  import opened Library

  datatype Protocol = Vless | Shadowsocks | Vmess | Trojan

  /** The `protocol` string the descriptor carries. */
  function ProtocolName(p: Protocol): string {
    match p
    case Vless => "vless"
    case Shadowsocks => "shadowsocks"
    case Vmess => "vmess"
    case Trojan => "trojan"
  }

  /** The credentials of a `vnext` target. `id` is `None` when the link has none. */
  datatype User =
    | VlessUser(id: Option<string>, encryption: string, flow: string)
    | VmessUser(id: Option<string>, alterId: int, security: string)

  /**
   The sole element of the one-element `vnext` list (vless, vmess) or
   `servers` list (shadowsocks, trojan). `cipher` (the `method` key) is present for shadowsocks only.
   */
  datatype Settings =
    | Vnext(address: Option<string>, port: Option<int>, user: User)
    | Servers(address: Option<string>, port: Option<int>, password: Option<string>, cipher: Option<string>)

  /** `tlsSettings`; an absent `alpn` or `fingerprint` is a key left out. */
  datatype Tls = Tls(serverName: Option<string>, alpn: Option<seq<string>>, fingerprint: Option<string>)

  /** `realitySettings` */
  datatype Reality = Reality(
    serverName: Option<string>,
    fingerprint: string,
    publicKey: string,
    shortId: string,
    spiderX: string)

  /**
   The transport block. `HttpUpgrade` is written under the key
   `httpUpgradeSettings` (vless), `Httpupgrade` under `httpupgradeSettings`
   (vmess); `Ws.host` is the `Host` header, absent when the headers are empty;
   `Xhttp` is a free-form object because a link may merge extra fields into it.
   */
  datatype Transport =
    | Ws(path: string, host: Option<string>)
    | HttpUpgrade(path: string, host: Option<string>)
    | Httpupgrade(path: string, host: Option<string>)
    | Xhttp(fields: map<string, Json>)
    | Grpc(serviceName: string, multiMode: bool, authority: Option<string>)
    | Tcp(headerType: string)
    | Kcp(
        mtu: int, tti: int, uplinkCapacity: int, downlinkCapacity: int, congestion: bool,
        readBufferSize: int, writeBufferSize: int, headerType: string, seed: string)

  /** The key under which the transport block sits in `streamSettings`. */
  function SettingsKey(t: Transport): string {
    match t
    case Ws(_, _) => "wsSettings"
    case HttpUpgrade(_, _) => "httpUpgradeSettings"
    case Httpupgrade(_, _) => "httpupgradeSettings"
    case Xhttp(_) => "xhttpSettings"
    case Grpc(_, _, _) => "grpcSettings"
    case Tcp(_) => "tcpSettings"
    case Kcp(_, _, _, _, _, _, _, _, _) => "kcpSettings"
  }

  /** The network kind a transport block belongs to. */
  function TransportNetwork(t: Transport): string {
    match t
    case Ws(_, _) => "ws"
    case HttpUpgrade(_, _) => "httpupgrade"
    case Httpupgrade(_, _) => "httpupgrade"
    case Xhttp(_) => "xhttp"
    case Grpc(_, _, _) => "grpc"
    case Tcp(_) => "tcp"
    case Kcp(_, _, _, _, _, _, _, _, _) => "kcp"
  }

  /** `streamSettings`: `network` and `security` are always present. */
  datatype Stream = Stream(
    network: string,
    security: string,
    tls: Option<Tls>,
    reality: Option<Reality>,
    transport: Option<Transport>)

  datatype Outbound = Outbound(tag: string, protocol: Protocol, settings: Settings, stream: Stream)

  /** Shadowsocks and trojan keep their endpoint in `servers`, vless and vmess in `vnext`. */
  predicate ServerFamily(p: Protocol) {
    p == Shadowsocks || p == Trojan
  }

  /** The shape invariants every parsed descriptor keeps. */
  predicate WellFormed(o: Outbound) {
    && (ServerFamily(o.protocol) <==> o.settings.Servers?)
    && (o.settings.Vnext? ==> (o.protocol == Vless <==> o.settings.user.VlessUser?))
    && (o.settings.Servers? ==> (o.protocol == Shadowsocks <==> o.settings.cipher.Some?))
    && (o.stream.tls.Some? <==> o.stream.security == "tls")
    && (o.stream.reality.Some? ==> o.stream.security == "reality")
    && (o.stream.transport.Some? ==> TransportNetwork(o.stream.transport.value) == o.stream.network)
    && (o.stream.transport.Some? && o.stream.transport.value.Tcp? ==>
          o.stream.transport.value.headerType != "none")
    && (o.stream.transport.Some? && o.stream.transport.value.Ws? && o.stream.transport.value.host.Some? ==>
          o.stream.transport.value.host.value != "")
  }

  /** `a` and `b` differ at most in the address of their target or server. */
  predicate SameExceptAddress(a: Outbound, b: Outbound) {
    && a.tag == b.tag
    && a.protocol == b.protocol
    && a.stream == b.stream
    && a.settings.(address := b.settings.address) == b.settings
  }

  /** The descriptor with the address of its target or server replaced by `addr`. */
  function WithAddress(o: Outbound, addr: string): (r: Outbound)
    ensures r.settings.address == Some(addr)
    ensures SameExceptAddress(r, o)
    ensures WellFormed(o) ==> WellFormed(r)
    ensures o.settings.address == Some(addr) ==> r == o
  {
    o.(settings := o.settings.(address := Some(addr)))
  }
}

=== FILE: library.dfy ===
/**
 The library calls the converter makes, supplied as total functions so that
 every parser is a pure function of the link and these collaborators.
 */
module Library {
  import opened Wrappers
  import opened Text
  import opened Urls

  /** A decoded JSON value (numbers other than integers are not modelled). */
  datatype Json =
    | Null
    | Bool(b: bool)
    | Number(n: int)
    | Str(s: string)
    | Array(items: seq<Json>)
    | Object(fields: map<string, Json>)

  /** The JSON value of a string that may be `None`. */
  function JsonOf(v: Option<string>): Json {
    match v
    case Some(s) => Str(s)
    case None => Null
  }

  /**
   - `urlParse`: `urlparse` followed by `parse_qs` of its query;
   - `unquote`: percent-decoding;
   - `b64DecodeText`: `base64.b64decode(...).decode('utf-8')`, `None` when either step raises;
   - `jsonObject`: `json.loads` of an object, `None` on `JSONDecodeError`;
   - `jsonStrings`: `json.loads` of the VMess payload object, `None` when it raises;
   - `toInt`: `int(...)` of a numeric string.
   */
  datatype Lib = Lib(
    urlParse: string -> Url,
    unquote: string -> string,
    b64DecodeText: string -> Option<string>,
    jsonObject: string -> Option<map<string, Json>>,
    jsonStrings: string -> Option<map<string, string>>,
    toInt: string -> int)

  /**
   The tag of a URL-shaped link: the percent-decoded fragment when it is
   non-empty, else `<prefix>-<hostname>`.
   */
  function LinkTag(lib: Lib, u: Url, prefix: string): string {
    if u.fragment != "" then lib.unquote(u.fragment) else prefix + "-" + Format(u.hostname)
  }

  /** `dict.update`: every key of either map, the value from `extra` where both have one. */
  function Merge(base: map<string, Json>, extra: map<string, Json>): (r: map<string, Json>)
    ensures r.Keys == base.Keys + extra.Keys
    ensures forall k :: k in extra ==> r[k] == extra[k]
    ensures forall k :: k in base && k !in extra ==> r[k] == base[k]
  {
    base + extra
  }
}

=== FILE: shadowsocks.dfy ===
/** `ss://base64(method:password)@host:port#name` links. */
module ShadowsocksLink {
  import opened Wrappers
  import opened Text
  import opened Urls
  import opened Library
  import opened Descriptor

  /**
   The userinfo decoded as base64 with `==` appended (so that unpadded input
   decodes), or `None` when there is no userinfo or decoding fails.
   */
  function DecodeUserinfo(lib: Lib, u: Url): Option<string> {
    match u.username
    case None => None
    case Some(user) => lib.b64DecodeText(user + "==")
  }

  /**
   The outbound of a parsed shadowsocks link, or `None` when the userinfo
   does not decode or its text holds no `:`. The method is the text before
   the first `:`, the password everything after it; the stream is fixed at
   tcp without security or extra blocks.
   */
  function ParseUrl(lib: Lib, u: Url): (r: Option<Outbound>)
    ensures r.Some? <==> DecodeUserinfo(lib, u).Some? && ':' in DecodeUserinfo(lib, u).value
    ensures r.Some? ==>
              && r.value.protocol == Shadowsocks && WellFormed(r.value)
              && r.value.tag == LinkTag(lib, u, "ss")
              && r.value.settings.Servers?
              && r.value.settings.address == u.hostname
              && r.value.settings.port == u.port
              && r.value.settings.cipher.Some? && r.value.settings.password.Some?
              && r.value.settings.cipher.value + ":" + r.value.settings.password.value == DecodeUserinfo(lib, u).value
              && ':' !in r.value.settings.cipher.value
              && r.value.stream == Stream("tcp", "none", None, None, None)
  {
    var tag := LinkTag(lib, u, "ss");
    match DecodeUserinfo(lib, u)
    case None => None
    case Some(text) =>
      match SplitOnce(text, ':')
      case None => None
      case Some((cipher, password)) =>
        Some(Outbound(
          tag,
          Shadowsocks,
          Servers(u.hostname, u.port, Some(password), Some(cipher)),
          Stream("tcp", "none", None, None, None)))
  }

  /**
   `parse_ss`: `None` exactly when the userinfo of the parsed link does not
   decode to text holding a colon.
   */
  function Parse(lib: Lib, link: string): (r: Option<Outbound>)
    ensures r.Some? <==>
              DecodeUserinfo(lib, lib.urlParse(link)).Some? && ':' in DecodeUserinfo(lib, lib.urlParse(link)).value
    ensures r.Some? ==>
              && r.value.protocol == Shadowsocks && WellFormed(r.value)
              && r.value.tag == LinkTag(lib, lib.urlParse(link), "ss")
              && r.value.settings.address == lib.urlParse(link).hostname
              && r.value.settings.port == lib.urlParse(link).port
              && r.value.stream == Stream("tcp", "none", None, None, None)
  {
    ParseUrl(lib, lib.urlParse(link))
  }

  /**
   The unpadded userinfo `YWVzLTI1Ni1nY206cGFzc3dvcmQ`, once decoded to
   `aes-256-gcm:password`, yields that method and password.
   */
  lemma UnpaddedUserinfoExample(lib: Lib, u: Url)
    requires u.username == Some("YWVzLTI1Ni1nY206cGFzc3dvcmQ")
    requires lib.b64DecodeText("YWVzLTI1Ni1nY206cGFzc3dvcmQ==") == Some("aes-256-gcm:password")
    ensures ParseUrl(lib, u).Some?
    ensures ParseUrl(lib, u).value.settings.cipher == Some("aes-256-gcm")
    ensures ParseUrl(lib, u).value.settings.password == Some("password")
  {
    assert "YWVzLTI1Ni1nY206cGFzc3dvcmQ" + "==" == "YWVzLTI1Ni1nY206cGFzc3dvcmQ==";
    assert "aes-256-gcm" + ":" + "password" == "aes-256-gcm:password";
    PasswordKeepsLaterColons(lib, u, "aes-256-gcm", "password");
  }

  /** A link without userinfo gives no result: the failed concatenation is caught. */
  lemma NoUserinfoNoResult(lib: Lib, u: Url)
    requires u.username.None?
    ensures ParseUrl(lib, u).None?
  {
  }

  /** Userinfo that does not decode, even with `==` appended, gives no result. */
  lemma UndecodableUserinfoNoResult(lib: Lib, u: Url, user: string)
    requires u.username == Some(user)
    requires lib.b64DecodeText(user + "==").None?
    ensures ParseUrl(lib, u).None?
  {
  }

  /**
   The userinfo is always decoded with `==` appended, whatever its length;
   the decoded text splits at its first colon into method and password.
   */
  lemma PaddedUserinfoSplits(lib: Lib, u: Url, user: string, cipher: string, password: string)
    requires u.username == Some(user)
    requires ':' !in cipher
    requires lib.b64DecodeText(user + "==") == Some(cipher + ":" + password)
    ensures ParseUrl(lib, u).Some?
    ensures ParseUrl(lib, u).value.settings.cipher == Some(cipher)
    ensures ParseUrl(lib, u).value.settings.password == Some(password)
  {
    PasswordKeepsLaterColons(lib, u, cipher, password);
  }

  /** A password may itself contain `:`: only the first colon separates it from the method. */
  lemma PasswordKeepsLaterColons(lib: Lib, u: Url, cipher: string, password: string)
    requires ':' !in cipher
    requires DecodeUserinfo(lib, u) == Some(cipher + ":" + password)
    ensures ParseUrl(lib, u).Some?
    ensures ParseUrl(lib, u).value.settings.cipher == Some(cipher)
    ensures ParseUrl(lib, u).value.settings.password == Some(password)
  {
    SplitOnceUnique(cipher + ":" + password, ':', cipher, password);
  }
}

=== FILE: stream_params.dfy ===
/**
 The security and tcp-header blocks that vless and trojan links both read
 from the same query parameters; the two schemes differ only in how they
 choose the server name, which is passed in.
 */
module StreamParams {
  import opened Wrappers
  import opened Urls
  import opened Descriptor

  /** The `alpn` list used when a link gives none. */
  const DefaultAlpn: seq<string> := ["h2", "http/1.1"]

  /**
   `tlsSettings` around an already chosen server name: every `alpn` value of
   the query (not only the first) or the default list, and the first `fp`
   value only when the key is present.
   */
  function TlsFromQuery(q: Query, serverName: Option<string>): (r: Tls)
    ensures r.serverName == serverName
    ensures "alpn" in q ==> r.alpn == Some(q["alpn"])
    ensures "alpn" !in q ==> r.alpn == Some(DefaultAlpn)
    ensures r.fingerprint.Some? <==> "fp" in q
    ensures "fp" in q ==> r.fingerprint.value == q["fp"][0]
  {
    Tls(serverName, Some(if "alpn" in q then q["alpn"] else DefaultAlpn), Get(q, "fp"))
  }

  /**
   `realitySettings` around an already chosen server name: fingerprint
   `chrome`, empty public key and short id, and spider path `/` unless the
   query gives `fp`, `pbk`, `sid`, `spx`.
   */
  function RealityFromQuery(q: Query, serverName: Option<string>): (r: Reality)
    ensures r.serverName == serverName
    ensures "fp" !in q ==> r.fingerprint == "chrome"
    ensures "pbk" !in q ==> r.publicKey == ""
    ensures "sid" !in q ==> r.shortId == ""
    ensures "spx" !in q ==> r.spiderX == "/"
    ensures "fp" in q ==> r.fingerprint == q["fp"][0]
    ensures "pbk" in q ==> r.publicKey == q["pbk"][0]
    ensures "sid" in q ==> r.shortId == q["sid"][0]
    ensures "spx" in q ==> r.spiderX == q["spx"][0]
  {
    Reality(
      serverName,
      First(q, "fp", "chrome"),
      First(q, "pbk", ""),
      First(q, "sid", ""),
      First(q, "spx", "/"))
  }

  /** The `tcpSettings` header block: only for a `headerType` that is present and not `none`. */
  function TcpHeader(q: Query): (r: Option<Transport>)
    ensures r.Some? <==> "headerType" in q && q["headerType"][0] != "none"
    ensures r.Some? ==> r.value == Tcp(q["headerType"][0])
  {
    var headerType := First(q, "headerType", "none");
    if headerType != "none" then Some(Tcp(headerType)) else None
  }
}

=== FILE: text.dfy ===
/**
 String helpers standing in for the few Python string operations the
 converter performs itself: prefix tests, `str.split`, the truthiness test
 behind `a if a else b`, and f-string rendering of a value that may be `None`.
 */
module Text {
  import opened Wrappers

  /** `s.startswith(prefix)` */
  predicate StartsWith(s: string, prefix: string) {
    |prefix| <= |s| && s[..|prefix|] == prefix
  }

  /** Python truthiness of a value that is a string or `None`: `None` and `""` are false. */
  predicate Truthy(v: Option<string>) {
    v.Some? && v.value != ""
  }

  /** How an f-string renders a value that is a string or `None`. */
  function Format(v: Option<string>): string {
    match v
    case Some(s) => s
    case None => "None"
  }

  /** No candidate before index `n` is truthy. */
  predicate NoneTruthyBefore(cands: seq<Option<string>>, n: nat)
    requires n <= |cands|
  {
    forall j :: 0 <= j < n ==> !Truthy(cands[j])
  }

  /**
   The chained conditional `c0 if c0 else c1 if c1 else ... else last`:
   the first truthy candidate, or `last` when none is truthy.
   */
  function Coalesce(cands: seq<Option<string>>, last: Option<string>): (r: Option<string>)
    ensures forall i :: 0 <= i < |cands| && Truthy(cands[i]) && NoneTruthyBefore(cands, i) ==> r == cands[i]
    ensures NoneTruthyBefore(cands, |cands|) ==> r == last
    ensures Truthy(r) || r == last
  {
    if |cands| == 0 then last
    else if Truthy(cands[0]) then cands[0]
    else
      var rest := Coalesce(cands[1..], last);
      assert forall i :: 1 <= i < |cands| && NoneTruthyBefore(cands, i) ==> NoneTruthyBefore(cands[1..], i - 1);
      rest
  }

  /**
   `head, rest = s.split(sep, 1)`: the text before the first `sep` and the
   text after it, or `None` when `s` holds no `sep` (the unpacking fails).
   */
  function SplitOnce(s: string, sep: char): (r: Option<(string, string)>)
    ensures r.None? <==> sep !in s
    ensures r.Some? ==> r.value.0 + [sep] + r.value.1 == s && sep !in r.value.0
  {
    if |s| == 0 then None
    else if s[0] == sep then Some(([], s[1..]))
    else
      match SplitOnce(s[1..], sep)
      case None => None
      case Some((head, rest)) =>
        assert s == [s[0]] + s[1..];
        Some(([s[0]] + head, rest))
  }

  /** The split at the first separator is the only split whose head holds no separator. */
  lemma {:induction false} SplitOnceUnique(s: string, sep: char, head: string, rest: string)
    requires head + [sep] + rest == s && sep !in head
    ensures SplitOnce(s, sep) == Some((head, rest))
  {
    if head == [] {
      assert s[0] == sep && s[1..] == rest;
    } else {
      assert s[0] == head[0] && s[0] != sep;
      assert s[1..] == head[1..] + [sep] + rest;
      SplitOnceUnique(s[1..], sep, head[1..], rest);
      assert [s[0]] + head[1..] == head;
    }
  }

  /** `s.split(sep)`: the maximal pieces of `s` between separators. */
  function Split(s: string, sep: char): (r: seq<string>)
    ensures |r| >= 1
    ensures forall i :: 0 <= i < |r| ==> sep !in r[i]
    decreases |s|
  {
    match SplitOnce(s, sep)
    case None => [s]
    case Some((head, rest)) => [head] + Split(rest, sep)
  }

  /** `sep.join(parts)` */
  function Join(parts: seq<string>, sep: char): string {
    if |parts| == 0 then ""
    else if |parts| == 1 then parts[0]
    else parts[0] + [sep] + Join(parts[1..], sep)
  }

  /** Joining the pieces of a split gives back the original string. */
  lemma {:induction false} JoinSplit(s: string, sep: char)
    ensures Join(Split(s, sep), sep) == s
    decreases |s|
  {
    match SplitOnce(s, sep)
    case None =>
    case Some((head, rest)) =>
      JoinSplit(rest, sep);
      var tail := Split(rest, sep);
      assert Split(s, sep) == [head] + tail;
      assert ([head] + tail)[1..] == tail;
  }

  /** Splitting a join of separator-free pieces gives back the pieces. */
  lemma {:induction false} SplitJoin(parts: seq<string>, sep: char)
    requires |parts| >= 1
    requires forall i :: 0 <= i < |parts| ==> sep !in parts[i]
    ensures Split(Join(parts, sep), sep) == parts
  {
    if |parts| > 1 {
      var rest := Join(parts[1..], sep);
      SplitOnceUnique(parts[0] + [sep] + rest, sep, parts[0], rest);
      SplitJoin(parts[1..], sep);
      assert [parts[0]] + parts[1..] == parts;
    }
  }
}

=== FILE: trojan.dfy ===
/** `trojan://password@host:port?params#name` links. */
module TrojanLink {
  import opened Wrappers
  import opened Text
  import opened Urls
  import opened Library
  import opened Descriptor
  import opened StreamParams
  import VlessLink

  /**
   The tls and reality server name: the first `sni` value when the key is
   present, else the first `host` value when present, else the address.
   Presence decides, not truthiness, and there is no `authority` tier.
   */
  function ServerName(q: Query, address: Option<string>): (r: Option<string>)
    ensures "sni" in q ==> r == Some(q["sni"][0])
    ensures "sni" !in q && "host" in q ==> r == Some(q["host"][0])
    ensures "sni" !in q && "host" !in q ==> r == address
  {
    FirstOr(q, "sni", FirstOr(q, "host", address))
  }

  /**
   For a query without blank values, as `parse_qs` produces by default, the
   presence-based choice is the first truthy of sni, host, address: the same
   name a vless link with security reality would get.
   */
  lemma ServerNameIsFirstTruthy(q: Query, address: Option<string>)
    requires NoBlankValues(q)
    ensures ServerName(q, address) == Coalesce([Get(q, "sni"), Get(q, "host")], address)
    ensures ServerName(q, address) == VlessLink.RealityServerName(q, address)
  {
    var cands := [Get(q, "sni"), Get(q, "host")];
    if "sni" in q {
      assert q["sni"][0] != "";
      assert NoneTruthyBefore(cands, 0);
    } else if "host" in q {
      assert q["host"][0] != "";
      assert NoneTruthyBefore(cands, 1);
    } else {
      assert NoneTruthyBefore(cands, 2);
    }
  }

  /**
   The `tcpSettings` header block: only when the `type` parameter is given,
   exactly once, as `tcp`, and `headerType` is present and not `none`.
   */
  function TcpBlock(q: Query): (r: Option<Transport>)
    ensures r.Some? <==> "type" in q && q["type"] == ["tcp"] && "headerType" in q && q["headerType"][0] != "none"
    ensures r.Some? ==> r == Some(Tcp(q["headerType"][0]))
  {
    if "type" in q && q["type"] == ["tcp"] then TcpHeader(q) else None
  }

  /**
   The outbound of a parsed trojan link. Network and security are read as
   for vless; the only transport block it ever carries is the tcp header.
   */
  function ParseUrl(lib: Lib, u: Url): (r: Outbound)
    ensures r.protocol == Trojan && WellFormed(r)
    ensures r.tag == LinkTag(lib, u, "trojan")
    ensures r.settings == Servers(u.hostname, u.port, u.username, None)
    ensures r.stream.network == First(u.query, "type", "tcp")
    ensures r.stream.security == First(u.query, "security", "none")
    ensures r.stream.tls.Some? <==> r.stream.security == "tls"
    ensures r.stream.reality.Some? <==> r.stream.security == "reality"
    ensures r.stream.tls.Some? ==> r.stream.tls.value == TlsFromQuery(u.query, ServerName(u.query, u.hostname))
    ensures r.stream.reality.Some? ==>
              r.stream.reality.value == RealityFromQuery(u.query, ServerName(u.query, u.hostname))
    ensures r.stream.transport == TcpBlock(u.query)
  {
    var q := u.query;
    var address := u.hostname;
    var security := First(q, "security", "none");
    Outbound(
      LinkTag(lib, u, "trojan"),
      Trojan,
      Servers(address, u.port, u.username, None),
      Stream(
        First(q, "type", "tcp"),
        security,
        if security == "tls" then Some(TlsFromQuery(q, ServerName(q, address))) else None,
        if security == "reality" then Some(RealityFromQuery(q, ServerName(q, address))) else None,
        TcpBlock(q)))
  }

  /**
   `parse_trojan`: never returns `None`. The tag, endpoint, password and
   query-driven stream all come from the parsed form of the link.
   */
  function Parse(lib: Lib, link: string): (r: Outbound)
    ensures r.protocol == Trojan && WellFormed(r)
    ensures r.tag == LinkTag(lib, lib.urlParse(link), "trojan")
    ensures r.settings == Servers(
              lib.urlParse(link).hostname, lib.urlParse(link).port, lib.urlParse(link).username, None)
    ensures r.stream.network == First(lib.urlParse(link).query, "type", "tcp")
    ensures r.stream.security == First(lib.urlParse(link).query, "security", "none")
    ensures r.stream.transport == TcpBlock(lib.urlParse(link).query)
  {
    ParseUrl(lib, lib.urlParse(link))
  }

  /**
   The trojan tcp-header guard is stricter than the vless one: whenever a
   trojan link gets a tcp header block, the vless reading of the same URL
   gets the same block, and a link that leaves the network to its `tcp`
   default never gets one as trojan.
   */
  lemma TcpGuardStricterThanVless(lib: Lib, u: Url)
    ensures ParseUrl(lib, u).stream.transport.Some? ==>
              VlessLink.ParseUrl(lib, u).stream.transport == ParseUrl(lib, u).stream.transport
    ensures "type" !in u.query ==> ParseUrl(lib, u).stream.transport.None?
    ensures "type" !in u.query ==> VlessLink.ParseUrl(lib, u).stream.transport == TcpHeader(u.query)
  {
  }

  /** `headerType=http` alone: a tcp block as vless, none as trojan; with `type=tcp` trojan emits it too. */
  lemma HeaderTypeExample(lib: Lib)
    ensures var u := Url(Some("pw"), Some("h"), Some(443), "", map["headerType" := ["http"]]);
            && VlessLink.ParseUrl(lib, u).stream.transport == Some(Tcp("http"))
            && ParseUrl(lib, u).stream.transport.None?
            && ParseUrl(lib, u).stream.network == "tcp"
    ensures var u := Url(Some("pw"), Some("h"), Some(443), "", map["type" := ["tcp"], "headerType" := ["http"]]);
            ParseUrl(lib, u).stream.transport == Some(Tcp("http"))
  {
  }
}

=== FILE: urls.dfy ===
/**
 The parsed form of a URL-shaped share link (`vless://`, `ss://`, `trojan://`)
 as `urlparse` and `parse_qs` deliver it, and the query accessors the parsers
 use. Parsing itself is a library call supplied from outside (see `Library`).
 */
module Urls {
  import opened Wrappers

  /** The result of `parse_qs`: every key present carries at least one value. */
  type Query = q: map<string, seq<string>> | forall k :: k in q ==> |q[k]| > 0 witness map[]

  /**
   The fields of `urlparse(link)` the parsers read. `username`, `hostname`
   and `port` are `None` when the link has none; `fragment` is `""` then.
   */
  datatype Url = Url(
    username: Option<string>,
    hostname: Option<string>,
    port: Option<int>,
    fragment: string,
    query: Query)

  /** `params.get(k, [d])[0]` with a string default. */
  function First(q: Query, k: string, d: string): string {
    if k in q then q[k][0] else d
  }

  /** `params.get(k, [d])[0]` with a default that may be `None`. */
  function FirstOr(q: Query, k: string, d: Option<string>): Option<string> {
    if k in q then Some(q[k][0]) else d
  }

  /** `params.get(k, [None])[0]` */
  function Get(q: Query, k: string): Option<string> {
    FirstOr(q, k, None)
  }

  /** `parse_qs` with its default `keep_blank_values=False` never yields an empty value. */
  predicate NoBlankValues(q: Query) {
    forall k :: k in q ==> forall i :: 0 <= i < |q[k]| ==> q[k][i] != ""
  }
}

=== FILE: vless.dfy ===
/** `vless://id@host:port?params#name` links. */
module VlessLink {
  import opened Wrappers
  import opened Text
  import opened Urls
  import opened Library
  import opened Descriptor
  import opened StreamParams

  /** The tls server name: the first truthy of `sni`, `authority`, `host`, else the address. */
  function TlsServerName(q: Query, address: Option<string>): Option<string> {
    Coalesce([Get(q, "sni"), Get(q, "authority"), Get(q, "host")], address)
  }

  /** The reality server name: the first truthy of `sni`, `host`, else the address. */
  function RealityServerName(q: Query, address: Option<string>): Option<string> {
    Coalesce([Get(q, "sni"), Get(q, "host")], address)
  }

  /** The tls server name follows the priority sni, authority, host, address. */
  lemma TlsServerNamePriority(q: Query, address: Option<string>)
    ensures Truthy(Get(q, "sni")) ==> TlsServerName(q, address) == Get(q, "sni")
    ensures !Truthy(Get(q, "sni")) && Truthy(Get(q, "authority")) ==>
              TlsServerName(q, address) == Get(q, "authority")
    ensures !Truthy(Get(q, "sni")) && !Truthy(Get(q, "authority")) && Truthy(Get(q, "host")) ==>
              TlsServerName(q, address) == Get(q, "host")
    ensures !Truthy(Get(q, "sni")) && !Truthy(Get(q, "authority")) && !Truthy(Get(q, "host")) ==>
              TlsServerName(q, address) == address
  {
    var cands := [Get(q, "sni"), Get(q, "authority"), Get(q, "host")];
    assert NoneTruthyBefore(cands, 0);
    assert !Truthy(cands[0]) ==> NoneTruthyBefore(cands, 1);
    assert !Truthy(cands[0]) && !Truthy(cands[1]) ==> NoneTruthyBefore(cands, 2);
    assert !Truthy(cands[0]) && !Truthy(cands[1]) && !Truthy(cands[2]) ==> NoneTruthyBefore(cands, 3);
  }

  /** The reality server name follows the priority sni, host, address: `authority` plays no part. */
  lemma RealityServerNamePriority(q: Query, address: Option<string>)
    ensures Truthy(Get(q, "sni")) ==> RealityServerName(q, address) == Get(q, "sni")
    ensures !Truthy(Get(q, "sni")) && Truthy(Get(q, "host")) ==>
              RealityServerName(q, address) == Get(q, "host")
    ensures !Truthy(Get(q, "sni")) && !Truthy(Get(q, "host")) ==>
              RealityServerName(q, address) == address
  {
    var cands := [Get(q, "sni"), Get(q, "host")];
    assert NoneTruthyBefore(cands, 0);
    assert !Truthy(cands[0]) ==> NoneTruthyBefore(cands, 1);
    assert !Truthy(cands[0]) && !Truthy(cands[1]) ==> NoneTruthyBefore(cands, 2);
  }

  /** The `extra` parameter decoded as a JSON object, when present and valid. */
  function XhttpExtra(lib: Lib, q: Query): Option<map<string, Json>> {
    if "extra" in q then lib.jsonObject(q["extra"][0]) else None
  }

  /**
   `xhttpSettings`: path (default `/`), host (default the address) and mode
   (default `auto`), overridden key by key by a valid `extra` object.
   */
  function XhttpFields(lib: Lib, q: Query, address: Option<string>): (r: map<string, Json>)
    ensures XhttpExtra(lib, q).None? ==> r.Keys == {"path", "host", "mode"}
    ensures XhttpExtra(lib, q).Some? ==> r.Keys == {"path", "host", "mode"} + XhttpExtra(lib, q).value.Keys
    ensures forall k :: XhttpExtra(lib, q).Some? && k in XhttpExtra(lib, q).value ==>
              r[k] == XhttpExtra(lib, q).value[k]
    ensures XhttpExtra(lib, q).None? || "path" !in XhttpExtra(lib, q).value ==>
              r["path"] == Str(First(q, "path", "/"))
    ensures XhttpExtra(lib, q).None? || "host" !in XhttpExtra(lib, q).value ==>
              r["host"] == JsonOf(FirstOr(q, "host", address))
    ensures XhttpExtra(lib, q).None? || "mode" !in XhttpExtra(lib, q).value ==>
              r["mode"] == Str(First(q, "mode", "auto"))
  {
    var base := map[
      "path" := Str(First(q, "path", "/")),
      "host" := JsonOf(FirstOr(q, "host", address)),
      "mode" := Str(First(q, "mode", "auto"))];
    match XhttpExtra(lib, q)
    case Some(extra) => Merge(base, extra)
    case None => base
  }

  /** The first `extra` value, when it decodes to an object, overrides the xhttp settings key by key. */
  lemma ExtraFromFirstValue(lib: Lib, q: Query, address: Option<string>, extra: map<string, Json>)
    requires "extra" in q && lib.jsonObject(q["extra"][0]) == Some(extra)
    ensures forall k :: k in extra ==> k in XhttpFields(lib, q, address) && XhttpFields(lib, q, address)[k] == extra[k]
  {
  }

  /** The transport block chosen by the `type` parameter (default `tcp`). */
  function StreamTransport(lib: Lib, q: Query, address: Option<string>): (r: Option<Transport>)
    ensures r.Some? ==> TransportNetwork(r.value) == First(q, "type", "tcp")
    ensures r.Some? <==>
              First(q, "type", "tcp") in {"ws", "httpupgrade", "xhttp", "grpc"} ||
              (First(q, "type", "tcp") == "tcp" && TcpHeader(q).Some?)
    ensures r.Some? && r.value.Ws? ==>
              && r.value.path == First(q, "path", "/")
              && (r.value.host.Some? <==> Truthy(FirstOr(q, "host", address)))
              && (r.value.host.Some? ==> r.value.host == FirstOr(q, "host", address))
    ensures r.Some? && r.value.HttpUpgrade? ==>
              r.value.path == First(q, "path", "/") && r.value.host == FirstOr(q, "host", address)
    ensures r.Some? && r.value.Xhttp? ==> r.value.fields == XhttpFields(lib, q, address)
    ensures r.Some? && r.value.Grpc? ==>
              && r.value.serviceName == First(q, "serviceName", "")
              && (r.value.multiMode <==> First(q, "mode", "gun") == "multi")
              && (r.value.authority.Some? <==> Truthy(Get(q, "authority")))
              && (r.value.authority.Some? ==> r.value.authority == Get(q, "authority"))
    ensures r.Some? && r.value.Tcp? ==> r == TcpHeader(q)
    ensures !r.Some? || !(r.value.Httpupgrade? || r.value.Kcp?)
  {
    var network := First(q, "type", "tcp");
    if network == "ws" then
      var host := FirstOr(q, "host", address);
      Some(Ws(First(q, "path", "/"), if Truthy(host) then host else None))
    else if network == "httpupgrade" then
      Some(HttpUpgrade(First(q, "path", "/"), FirstOr(q, "host", address)))
    else if network == "xhttp" then
      Some(Xhttp(XhttpFields(lib, q, address)))
    else if network == "grpc" then
      var authority := Get(q, "authority");
      Some(Grpc(
        First(q, "serviceName", ""),
        First(q, "mode", "gun") == "multi",
        if Truthy(authority) then authority else None))
    else if network == "tcp" then
      TcpHeader(q)
    else
      None
  }

  /**
   The outbound of a parsed vless link. The stream always names its network
   (default `tcp`) and security (default `none`); the tls block appears
   exactly for security `tls` and the reality block exactly for `reality`.
   */
  function ParseUrl(lib: Lib, u: Url): (r: Outbound)
    ensures r.protocol == Vless && WellFormed(r)
    ensures r.tag == LinkTag(lib, u, "vless")
    ensures r.settings == Vnext(
              u.hostname, u.port,
              VlessUser(u.username, First(u.query, "encryption", "none"), First(u.query, "flow", "")))
    ensures r.stream.network == First(u.query, "type", "tcp")
    ensures r.stream.security == First(u.query, "security", "none")
    ensures r.stream.tls.Some? <==> r.stream.security == "tls"
    ensures r.stream.reality.Some? <==> r.stream.security == "reality"
    ensures r.stream.tls.Some? ==> r.stream.tls.value == TlsFromQuery(u.query, TlsServerName(u.query, u.hostname))
    ensures r.stream.reality.Some? ==>
              r.stream.reality.value == RealityFromQuery(u.query, RealityServerName(u.query, u.hostname))
    ensures r.stream.transport == StreamTransport(lib, u.query, u.hostname)
  {
    var q := u.query;
    var address := u.hostname;
    var security := First(q, "security", "none");
    Outbound(
      LinkTag(lib, u, "vless"),
      Vless,
      Vnext(address, u.port, VlessUser(u.username, First(q, "encryption", "none"), First(q, "flow", ""))),
      Stream(
        First(q, "type", "tcp"),
        security,
        if security == "tls" then Some(TlsFromQuery(q, TlsServerName(q, address))) else None,
        if security == "reality" then Some(RealityFromQuery(q, RealityServerName(q, address))) else None,
        StreamTransport(lib, q, address)))
  }

  /**
   `parse_vless`: never returns `None`. The tag, endpoint and query-driven
   stream all come from the parsed form of the link.
   */
  function Parse(lib: Lib, link: string): (r: Outbound)
    ensures r.protocol == Vless && WellFormed(r)
    ensures r.tag == LinkTag(lib, lib.urlParse(link), "vless")
    ensures r.settings.address == lib.urlParse(link).hostname
    ensures r.settings.port == lib.urlParse(link).port
    ensures r.settings.user.id == lib.urlParse(link).username
    ensures r.stream.network == First(lib.urlParse(link).query, "type", "tcp")
    ensures r.stream.security == First(lib.urlParse(link).query, "security", "none")
  {
    ParseUrl(lib, lib.urlParse(link))
  }
}

=== FILE: vmess.dfy ===
/** `vmess://base64(json)` links, whose payload is a JSON object of string fields. */
module VmessLink {
  import opened Wrappers
  import opened Text
  import opened Library
  import opened Descriptor

  /** The scheme prefix stripped before decoding. */
  const Prefix := "vmess://"

  /** `data.get(k, d)` */
  function Lookup(data: map<string, string>, k: string, d: string): string {
    if k in data then data[k] else d
  }

  /** A field that Python reads as truthy: present and non-empty. */
  predicate Filled(data: map<string, string>, k: string) {
    k in data && data[k] != ""
  }

  /**
   The tls server name: `sni` when the key is present (even if empty), else
   `host` when present, else `""`.
   */
  function ServerName(data: map<string, string>): (r: string)
    ensures "sni" in data ==> r == data["sni"]
    ensures "sni" !in data && "host" in data ==> r == data["host"]
    ensures "sni" !in data && "host" !in data ==> r == ""
  {
    Lookup(data, "sni", Lookup(data, "host", ""))
  }

  /**
   `tlsSettings`, present exactly when the `tls` field is `"tls"`. A set
   `alpn` field is split at commas into the list; `fingerprint` appears only
   for a set `fp` field.
   */
  function TlsBlock(data: map<string, string>): (r: Option<Tls>)
    ensures r.Some? <==> "tls" in data && data["tls"] == "tls"
    ensures r.Some? ==> r.value.serverName == Some(ServerName(data))
    ensures r.Some? ==> (r.value.alpn.Some? <==> Filled(data, "alpn"))
    ensures r.Some? && r.value.alpn.Some? ==>
              && Join(r.value.alpn.value, ',') == data["alpn"]
              && forall i :: 0 <= i < |r.value.alpn.value| ==> ',' !in r.value.alpn.value[i]
    ensures r.Some? ==> (r.value.fingerprint.Some? <==> Filled(data, "fp"))
    ensures r.Some? && r.value.fingerprint.Some? ==> r.value.fingerprint.value == data["fp"]
  {
    if "tls" in data && data["tls"] == "tls" then
      var alpn := if Filled(data, "alpn") then Some(Split(data["alpn"], ',')) else None;
      JoinSplit(Lookup(data, "alpn", ""), ',');
      Some(Tls(Some(ServerName(data)), alpn, if Filled(data, "fp") then Some(data["fp"]) else None))
    else
      None
  }

  /** The transport block chosen by the `net` field (default `tcp`). */
  function StreamTransport(data: map<string, string>): (r: Option<Transport>)
    ensures r.Some? ==> TransportNetwork(r.value) == Lookup(data, "net", "tcp")
    ensures r.Some? <==>
              Lookup(data, "net", "tcp") in {"ws", "xhttp", "httpupgrade", "grpc", "kcp"} ||
              (Lookup(data, "net", "tcp") == "tcp" && Lookup(data, "type", "none") != "none")
    ensures r.Some? && r.value.Tcp? ==> r.value.headerType == data["type"]
    ensures r.Some? && r.value.Ws? ==>
              && r.value.path == Lookup(data, "path", "/")
              && (r.value.host.Some? <==> Filled(data, "host"))
              && (r.value.host.Some? ==> r.value.host.value == data["host"])
    ensures r.Some? && r.value.Xhttp? ==>
              r.value.fields == map[
                "path" := Str(Lookup(data, "path", "/")),
                "host" := Str(Lookup(data, "host", "")),
                "mode" := Str(Lookup(data, "mode", "auto"))]
    ensures r.Some? && r.value.Httpupgrade? ==>
              r.value.path == Lookup(data, "path", "/") && r.value.host == Some(Lookup(data, "host", ""))
    ensures r.Some? && r.value.Grpc? ==>
              && r.value.serviceName == Lookup(data, "path", "")
              && r.value.authority == Some(Lookup(data, "authority", ""))
              && (r.value.multiMode <==> Lookup(data, "mode", "gun") == "multi")
    ensures r.Some? && r.value.Kcp? ==>
              && r.value.mtu == 1350 && r.value.tti == 50
              && r.value.uplinkCapacity == 5 && r.value.downlinkCapacity == 20
              && !r.value.congestion
              && r.value.readBufferSize == 2 && r.value.writeBufferSize == 2
              && r.value.headerType == Lookup(data, "type", "none")
              && r.value.seed == Lookup(data, "path", "")
    ensures r.Some? ==> !r.value.HttpUpgrade?
  {
    var network := Lookup(data, "net", "tcp");
    if network == "tcp" then
      var headerType := Lookup(data, "type", "none");
      if headerType != "none" then Some(Tcp(headerType)) else None
    else if network == "ws" then
      Some(Ws(Lookup(data, "path", "/"), if Filled(data, "host") then Some(data["host"]) else None))
    else if network == "xhttp" then
      Some(Xhttp(map[
        "path" := Str(Lookup(data, "path", "/")),
        "host" := Str(Lookup(data, "host", "")),
        "mode" := Str(Lookup(data, "mode", "auto"))]))
    else if network == "httpupgrade" then
      Some(Httpupgrade(Lookup(data, "path", "/"), Some(Lookup(data, "host", ""))))
    else if network == "grpc" then
      Some(Grpc(
        Lookup(data, "path", ""),
        Lookup(data, "mode", "gun") == "multi",
        Some(Lookup(data, "authority", ""))))
    else if network == "kcp" then
      Some(Kcp(1350, 50, 5, 20, false, 2, 2, Lookup(data, "type", "none"), Lookup(data, "path", "")))
    else
      None
  }

  /**
   The outbound of a decoded payload. The tag is the percent-decoded `ps`
   field, or `vmess-<add>` when the field is absent; the port defaults to
   443 and alterId to 0; a vmess stream never carries a reality block.
   */
  function ParseData(lib: Lib, data: map<string, string>): (r: Outbound)
    ensures r.protocol == Vmess && WellFormed(r)
    ensures r.tag == lib.unquote(if "ps" in data then data["ps"] else "vmess-" + Lookup(data, "add", ""))
    ensures r.settings.Vnext?
    ensures r.settings.address == Some(Lookup(data, "add", ""))
    ensures r.settings.port == Some(if "port" in data then lib.toInt(data["port"]) else 443)
    ensures r.settings.user.VmessUser?
    ensures r.settings.user.id == (if "id" in data then Some(data["id"]) else None)
    ensures r.settings.user.alterId == (if "aid" in data then lib.toInt(data["aid"]) else 0)
    ensures r.settings.user.security == Lookup(data, "scy", "auto")
    ensures r.stream.network == Lookup(data, "net", "tcp")
    ensures r.stream.security == Lookup(data, "tls", "none")
    ensures r.stream.tls == TlsBlock(data)
    ensures r.stream.reality.None?
    ensures r.stream.transport == StreamTransport(data)
  {
    var address := Lookup(data, "add", "");
    Outbound(
      lib.unquote(Lookup(data, "ps", "vmess-" + address)),
      Vmess,
      Vnext(
        Some(address),
        Some(if "port" in data then lib.toInt(data["port"]) else 443),
        VmessUser(
          if "id" in data then Some(data["id"]) else None,
          if "aid" in data then lib.toInt(data["aid"]) else 0,
          Lookup(data, "scy", "auto"))),
      Stream(
        Lookup(data, "net", "tcp"),
        Lookup(data, "tls", "none"),
        TlsBlock(data),
        None,
        StreamTransport(data)))
  }

  /**
   The JSON object carried by a vmess link: the text after the prefix,
   padded with `==`, base64-decoded and parsed; `None` when a step fails.
   */
  function Payload(lib: Lib, link: string): Option<map<string, string>>
    requires StartsWith(link, Prefix)
  {
    match lib.b64DecodeText(link[|Prefix|..] + "==")
    case None => None
    case Some(text) => lib.jsonStrings(text)
  }

  /** `parse_vmess`: `None` for another prefix or a payload that does not decode. */
  function Parse(lib: Lib, link: string): (r: Option<Outbound>)
    ensures !StartsWith(link, Prefix) ==> r.None?
    ensures StartsWith(link, Prefix) ==> (r.Some? <==> Payload(lib, link).Some?)
    ensures r.Some? ==> r.value.protocol == Vmess && WellFormed(r.value)
    ensures r.Some? ==> r.value == ParseData(lib, Payload(lib, link).value)
  {
    if !StartsWith(link, Prefix) then None
    else
      match Payload(lib, link)
      case None => None
      case Some(data) => Some(ParseData(lib, data))
  }

  /**
   The decoded text is exactly what follows `vmess://`, with `==` appended so
   that unpadded base64 decodes; a payload that decodes and parses yields the
   outbound of that object.
   */
  lemma PayloadFollowsPrefix(lib: Lib, p: string, text: string, data: map<string, string>)
    requires lib.b64DecodeText(p + "==") == Some(text)
    requires lib.jsonStrings(text) == Some(data)
    ensures Parse(lib, Prefix + p) == Some(ParseData(lib, data))
  {
    assert StartsWith(Prefix + p, Prefix);
    assert (Prefix + p)[|Prefix|..] == p;
  }

  /** A payload that does not decode as base64, even with `==` appended, gives no result. */
  lemma UndecodablePayloadNoResult(lib: Lib, p: string)
    requires lib.b64DecodeText(p + "==").None?
    ensures Parse(lib, Prefix + p).None?
  {
    assert StartsWith(Prefix + p, Prefix);
    assert (Prefix + p)[|Prefix|..] == p;
  }

  /** A payload whose decoded text is not a JSON object gives no result. */
  lemma NonJsonPayloadNoResult(lib: Lib, p: string, text: string)
    requires lib.b64DecodeText(p + "==") == Some(text)
    requires lib.jsonStrings(text).None?
    ensures Parse(lib, Prefix + p).None?
  {
    assert StartsWith(Prefix + p, Prefix);
    assert (Prefix + p)[|Prefix|..] == p;
  }

  /**
   A ws payload with a numeric port string yields that port, the path and
   the `Host` header.
   */
  lemma WsPayloadExample(lib: Lib)
    requires lib.toInt("8080") == 8080
    ensures var o := ParseData(lib, map[
              "add" := "h.example.com", "port" := "8080", "id" := "abc",
              "net" := "ws", "host" := "w.example.com", "path" := "/p"]);
            && o.settings.port == Some(8080)
            && o.settings.address == Some("h.example.com")
            && o.stream.transport == Some(Ws("/p", Some("w.example.com")))
  {
  }
}

=== FILE: wrappers.dfy ===
/** The optional value used wherever the converter returns or stores Python's `None`. */
module Wrappers {

  datatype Option<+T> = None | Some(value: T) {

    /** The carried value, or `default` when there is none. */
    function GetOr(default: T): T {
      match this
      case Some(v) => v
      case None => default
    }
  }
}
